=== FILE: README.md ===
# Movement systems of a small ECS game, modelled in Dafny

The game is a 2D runtime built on an entity-component-system design: a scene
owns a registry of entities, each carrying plain-data components (Transform,
Movement, Sprite, Camera), and systems run over the registry once per frame.
This project models the per-frame game logic of the concrete systems and the
two per-pixel colour transforms of the game, as pure functions over immutable
values:

- `Registry` — the entity store as a map from identifiers to the components an
  entity holds, with creation, attach, detach, lookup and the view "entities
  holding all of these component types". Lookups of a missing component fail
  with `MissingComponent` instead of crashing.
- `Scenes` — the scene (registry, player, main camera) and the camera and
  character setup systems.
- `PlayerInput` — the key state machine on the player's velocity, exactly as
  written, including the key-up cases that clear the other axis (`w` clears the
  horizontal velocity, `d` the vertical one, and `s` falls through into `d`).
- `MovementUpdate` — integration of velocity over a frame with the all-or-nothing
  rejection at the play area (130, 1200) x (245, 890).
- `CameraFollow` — the camera-follow system, each axis committed on its own.
  The configured game never registers it, so it is modelled on its own.
- `SpriteRender` and `TileMap` — the source and destination rectangles handed
  to the renderer, and the decoding of the map image into atlas cells.
- `Pixels` and `Shaders` — channels of a 32-bit pixel, the darkening shader
  `fragment` and the background key `spriteBackground`.
- `Game` — the configured setup order and a frame (all input events, then the
  movement update), with the proof that the player never leaves the play area.

Delta time is a whole number of milliseconds `dtMs`; the frame's `dT` is
`dtMs / 1000` seconds, and a new coordinate is the exact value `p + v * dT`
truncated toward zero, as the C++ conversion to `int` does (`CInt.TruncDiv`).
Shifts and masks on pixels are written with division and remainder by powers
of two, which agree with them on unsigned values.

The model follows the code as written, including where it departs from the
evident design: movement and camera bounds are strict (`130 < x < 1200`, `0 < cx < ww - vw`),
not closed intervals; releasing `w` or `d` clears the wrong axis; tile columns
advance by the constant 60 while rows advance by the zoomed tile height 16 x zoom
(at zoom 4, neighbouring tiles in a row overlap by 4 pixels); and the
camera-follow system is not part of the running game. The shader only ever
darkens colours other than its two sentinels; the key colour 0xCD55CF itself is
brightened to white, so "never brightens" is stated for the other colours.

## Model

| member | source | states |
|---|---|---|
| CInt.TruncDiv | src/Scene/Systems.hpp:128-129 | the quotient is truncated toward zero: the remainder has the dividend's sign and is smaller than the divisor |
| Registry.CreateEntity | src/Scene/Systems.hpp:55-58 | a fresh identifier not used before, holding only its name and a Transform at the given position; all other entities unchanged |
| Registry.Add | src/Scene/Entities.hpp:20-23 | attaching fails exactly for an unknown entity and otherwise touches no other entity |
| Registry.Remove | src/Scene/Entities.hpp:25-28 | detaching fails exactly for an unknown entity, clears only that component (the entity keeps its name and its other components), touches no other entity, and is a no-op when the component is absent |
| Registry.Get | src/Scene/Entities.hpp:30-33 | a lookup succeeds exactly when the entity holds the component, and otherwise reports it missing |
| Registry.GetAfterAdd | src/Scene/Entities.hpp:20-33 | reading back a component just attached yields it |
| Registry.AddKeepsOtherKinds | src/Scene/Entities.hpp:20-23 | attaching one component type leaves the entity's other components as they were |
| Registry.GetAfterRemove | src/Scene/Entities.hpp:25-33 | after a removal the component is reported missing |
| Registry.RemoveUndoesAdd | src/Scene/Entities.hpp:20-28 | removing a freshly attached component restores the registry |
| Registry.View | src/Scene/Systems.hpp:123-124 | the view holds exactly the live entities that have every listed component type |
| Registry.EmptyView | src/Scene/Systems.hpp:123-124 | a registry with no entities yields an empty view |
| Scenes.CameraSetup | src/Scene/Systems.hpp:54-67 | the main camera becomes a fresh entity at the origin carrying the given camera parameters; it is the only entity added and existing entities are untouched |
| Scenes.CharacterSetup | src/Scene/Systems.hpp:18-33 | fails without a main camera component; otherwise the player is a fresh entity at (200, 250) with velocity (0, 0), the 50-texel sprite cell at (0, 0) and no Camera; it is the only entity added and existing entities are untouched |
| PlayerInput.OnEvent | src/Scene/Systems.hpp:76-114 | key-down a/d set vx to -400/400 and w/s set vy to -400/400; key-up a and w zero vx, s and d zero vy; the other axis, quit and every other event leave the velocity unchanged |
| PlayerInput.OnEventsKeepsSpeedSet | src/Scene/Systems.hpp:76-114 | after any event sequence each velocity component is -400, 0 or 400 |
| PlayerInput.OnEventsAppend | src/Scene/Systems.hpp:72-116 | delivering events in two batches equals delivering them at once |
| PlayerInput.OnEventIdempotent | src/Scene/Systems.hpp:78-114 | a repeated event has no further effect |
| PlayerInput.PressReleaseStops | src/Scene/Systems.hpp:81-108 | pressing and releasing a or s stops the axis the key drove |
| PlayerInput.PressReleaseMismatch | src/Scene/Systems.hpp:84-111 | pressing and releasing d leaves vx at 400, and w leaves vy at -400 |
| PlayerInput.Run | src/Scene/Systems.hpp:72-116 | fails unless the player has a Movement and a Sprite; otherwise only the player's velocity changes, to the state machine's next state |
| MovementUpdate.Advance | src/Scene/Systems.hpp:128-129 | the new coordinate is within one unit of the exact `p + v * dT`, and unchanged when velocity or elapsed time is zero |
| MovementUpdate.Step | src/Scene/Systems.hpp:128-133 | the entity either stays put or moves to its candidate, and it moves exactly when the candidate is strictly inside the play area |
| MovementUpdate.Run | src/Scene/Systems.hpp:122-136 | only the Transform of entities having both Transform and Movement changes, each by one step; velocities and all other entities and components unchanged |
| MovementUpdate.RunTouchesOnlyView | src/Scene/Systems.hpp:123-126 | an entity that changed is in the Transform+Movement view |
| MovementUpdate.StepAllOrNothing | src/Scene/Systems.hpp:130-133 | both coordinates take the candidate values iff all four bound checks pass (or the candidate is the current position); never one axis only |
| MovementUpdate.StepPreservesPlayArea | src/Scene/Systems.hpp:130-133 | a position strictly inside the play area stays inside for any velocity and delta time |
| MovementUpdate.StepAtRest | src/Scene/Systems.hpp:128-133 | zero elapsed time or zero velocity leaves the position unchanged |
| MovementUpdate.RunPreservesPlayArea | src/Scene/Systems.hpp:122-136 | if every moving entity is inside the play area before the update, it is after |
| MovementUpdate.RunZeroDeltaIsIdentity | src/Scene/Systems.hpp:122-136 | an update with zero elapsed time leaves the registry unchanged |
| MovementUpdate.StepInsideExample | src/Scene/Systems.hpp:128-133 | from (500, 500) at (400, 0) for 0.1 s the entity reaches (540, 500) |
| MovementUpdate.StepRejectedExample | src/Scene/Systems.hpp:128-133 | from (1195, 500) the candidate x 1235 is rejected and the entity stays |
| CameraFollow.Target | src/Scene/Systems.hpp:146-147 | the target puts the player at half the viewport minus 12 x zoom from the camera |
| CameraFollow.FollowAxis | src/Scene/Systems.hpp:149-155 | the axis takes the target iff it lies strictly between 0 and world minus viewport, else keeps its value |
| CameraFollow.Follow | src/Scene/Systems.hpp:146-155 | x and y are each followed on their own axis data |
| CameraFollow.FollowPreservesInWorld | src/Scene/Systems.hpp:149-155 | a camera within [0, world - viewport] on both axes stays there |
| CameraFollow.FollowIdempotent | src/Scene/Systems.hpp:146-155 | following the same player position twice changes nothing the second time |
| CameraFollow.FollowAxesIndependent | src/Scene/Systems.hpp:149-155 | the new camera x does not depend on any y-axis data |
| CameraFollow.FollowCentresPlayer | src/Scene/Systems.hpp:146-151 | whenever the camera x moves, the player sits at the fixed offset from the camera's centre |
| CameraFollow.Run | src/Scene/Systems.hpp:141-156 | fails unless player Transform and camera Camera and Transform exist; otherwise only the camera's Transform changes |
| SpriteRender.SpriteDraw | src/Scene/Systems.hpp:175-178 | the source is the whole sprite cell; the destination is the entity position relative to the camera, a square zoom times the cell size |
| SpriteRender.SpriteDrawTranslationInvariant | src/Scene/Systems.hpp:175-178 | moving camera and entity by the same offset draws the same rectangles |
| SpriteRender.SpriteDrawAtOrigin | src/Scene/Systems.hpp:178-178 | a camera at the origin draws sprites at their world positions |
| SpriteRender.Run | src/Scene/Systems.hpp:165-183 | fails without the camera's Transform or Camera; otherwise exactly one draw per Transform+Sprite entity |
| Pixels.Pack | src/Game/game.cpp:72-74 | the packed pixel's channels are the ones packed |
| Pixels.PackChannels | src/Game/game.cpp:43-74 | a pixel is rebuilt from its four channels |
| TileMap.TileRect | src/Scene/Systems.hpp:232-235 | the cell is 16 x 16 at multiples of 16 in [0, 4080], and dividing its corner by 16 gives back red and green |
| TileMap.TileRectIgnoresBlueAlpha | src/Scene/Systems.hpp:233-235 | pixels agreeing on red and green select the same cell |
| TileMap.TileRectInjectiveOnRedGreen | src/Scene/Systems.hpp:233-235 | pixels selecting the same cell agree on red and green |
| TileMap.AuthoringRoundTrip | src/Scene/Systems.hpp:232-235 | a pixel painted with red r and green g selects (16 r, 16 g, 16, 16) whatever its blue and alpha |
| TileMap.Decode | src/Scene/Systems.hpp:227-236 | exactly width x height cells, cell i decoded from pixel i |
| TileMap.DecodeExample | src/Scene/Systems.hpp:231-236 | a 2 x 1 map of red 1 then green 2 decodes to (16, 0, 16, 16), (0, 32, 16, 16) |
| TileMap.Render | src/Scene/Systems.hpp:241-259 | one draw per tile in row-major order; tile k is drawn at column offset 60 (k mod width) and row offset (k div width) x zoom x 16, shifted by the camera |
| TileMap.RenderScene | src/Scene/Systems.hpp:241-259 | fails without the main camera or its Transform or Camera; otherwise draws what `Render` draws with that camera's position and zoom |
| TileMap.RenderRow | src/Scene/Systems.hpp:251-255 | one row appends width draws whose running rectangle advances by 60 per column |
| TileMap.TileDrawRowCol | src/Scene/Systems.hpp:249-258 | the tile at row i, column j is drawn at (-cx + 60 j, -cy + i x zoom x 16), size zoom x 16 |
| TileMap.ColumnStepQuirk | src/Scene/Systems.hpp:245-257 | at zoom 4 neighbouring columns are 60 apart while each tile is 64 wide |
| Shaders.Darken | src/Game/game.cpp:47-69 | a channel is lowered by 30 with a floor at 0, never raised |
| Shaders.Fragment | src/Game/game.cpp:36-81 | black stays black; white and 0xCD55CF become white; any other colour has each channel darkened; the result fits in 24 bits |
| Shaders.FragmentNeverBrightens | src/Game/game.cpp:43-76 | outside the two sentinels no output channel exceeds the input channel |
| Shaders.FragmentRange | src/Game/game.cpp:43-80 | every output is white or has every channel at most 225 |
| Shaders.FragmentBlackIsDarkening | src/Game/game.cpp:38-40 | the black special case agrees with the general darkening |
| Shaders.FragmentIgnoresTime | src/Game/game.cpp:36-36 | the frame time does not affect the shader |
| Shaders.SpriteBackground | src/Game/game.cpp:82-92 | 0xCD55CF becomes white, every other colour is unchanged, and the key colour never survives |
| Shaders.SpriteBackgroundIdempotent | src/Game/game.cpp:86-91 | keying twice equals keying once |
| Shaders.SpriteBackgroundIgnoresTime | src/Game/game.cpp:82-82 | the frame time does not affect the key |
| Shaders.FragmentAbsorbsBackground | src/Game/game.cpp:36-92 | keying before shading does not change the shaded colour |
| Game.ConfiguredCamera | src/Game/game.cpp:108-114 | zoom 4, viewport the window, world 1536 x 1216 |
| Game.SetupScene | src/Game/game.cpp:106-127 | camera then character setup always succeeds and leaves a consistent scene with the player at the spawn point and the camera at the origin |
| Game.Start | src/Game/game.cpp:155-164 | after initialisation the game is running and its scene is consistent |
| Game.InputAll | src/Game/game.cpp:170-222 | every polled event goes to the player input system in order; with at least one event it fails when there is no player or the player lacks a Movement or a Sprite, and succeeds otherwise; only the player's velocity changes, to the state machine run over the events |
| Game.Frame | src/Game/game.cpp:165-230 | a frame keeps the scene valid, and the game is still running after it exactly when it was before and no event of the frame is a quit; in a consistent scene the player's velocity becomes the input state machine run over the frame's events and the player then steps with that velocity, its name, Sprite and Camera unchanged; every other entity takes one movement step with its own velocity |
| Game.FramePreservesConsistent | src/Game/game.cpp:220-230 | a frame of a consistent scene succeeds and keeps it consistent: velocities in the speed set, moving entities in the play area |
| Game.ConsistentThroughFrames | src/Scene/Systems.hpp:122-136 | any number of frames keeps the scene consistent |
| Game.QuitEndsTheLoop | src/Game/game.cpp:171-173 | the frame whose events hold a quit clears the running flag and is the last frame played; later frames change nothing |
| Game.RunningWithoutQuit | src/Game/game.cpp:275-277 | as long as no frame holds a quit event the game reports that it is running |
| Game.PlayerStaysInPlayArea | src/Scene/Systems.hpp:25-29 | from the spawn point, after any frames, the player is strictly inside the play area |

## Left out

- Frame pacing (src/Game/game.cpp:131-154): wall-clock ticks, the float frame duration and the sleep are I/O; delta time is a parameter.
- MovementUpdate.Advance: takes `dT` as an exact number of milliseconds over 1000 and does not model the float rounding of `dT` or of `vel * dT`, nor the undefined result of a `double` that does not fit in an `int`. The rounding can show: with `dT` the float nearest 0.1, x = 500 and vx = -400 land on 459 in float arithmetic and on 460 here; with vx = 400 over 15 ms the float product can fall just below 6 and move 5 units where the exact value moves 6.
- All C++ `int` arithmetic (positions, `zoom * size`, running tile rectangles) is unbounded here; 32-bit overflow is not modelled because no configured value comes near it.
- SDL and image calls: window and renderer creation, texture and map loading, `STexture` pixel reads, `SDL_RenderCopy` and presenting. Textures are opaque handles, the map image is a given pixel sequence, and render systems return the rectangles they would draw.
- The entt registry is not part of this model: `Registry` is an abstract map. Attaching a component that is already present overwrites it; entt's own behaviour there is not modelled. Component lookups that entt would leave undefined report `MissingComponent`.
- The scene's dispatch (Scene.h is not part of this model): `Game.Frame` assumes the scene calls the registered input systems for each event and then the registered update systems, in registration order.
- The program's entry point is not part of this model: `Game.RunFrames` assumes the main loop checks `running()` before each frame and then handles events, updates and renders. `Game.RunFrames` carries no contract of its own; what it does is stated by `Game.ConsistentThroughFrames`, `Game.QuitEndsTheLoop` and `Game.RunningWithoutQuit`.
- The coin and ant demo in `handleEvents`, `update` and `render` (src/Game/game.cpp:170-219, 231-234, 244-260): global rectangles unrelated to the entity systems.
- Heap ownership of entity handles, rectangles and textures: memory management, not behaviour.
- SpriteRender.Run: returns the draws as a map from entity to rectangles, so the order of the draw calls, which decides which of two overlapping sprites ends up on top, is not modelled; the registry view's iteration order is unspecified.
- The tile table's lifetime (allocated in setup, read in render) is not modelled; `TileMap.Render` takes the decoded table as an argument.

=== FILE: camera.dfy ===
/** The camera-follow update system: centres the camera on the player, each
    axis clamped on its own by rejection. */
module CameraFollow {
  import opened Wrappers
  import opened CInt
  import opened Components
  import opened Registry
  import opened Scenes

  /** Fixed per-axis offset, in world units per unit of zoom. */
  const FollowOffset: int := 12

  /** Where the camera wants to be on one axis: the player position less half
      the viewport (C++ division), plus the zoomed offset. */
  function Target(p: int, viewport: int, zoom: int): (r: int)
    ensures viewport >= 0 ==> r + viewport / 2 - FollowOffset * zoom == p
  {
    p - TruncDiv(viewport, 2) + FollowOffset * zoom
  }

  /** One axis: the target is committed only strictly between 0 and `world - viewport`. */
  function FollowAxis(current: int, p: int, viewport: int, world: int, zoom: int): (r: int)
    ensures r == current || 0 < r < world - viewport
    ensures 0 < Target(p, viewport, zoom) < world - viewport ==> r == Target(p, viewport, zoom)
    ensures r != current ==> r == Target(p, viewport, zoom)
  {
    var t := Target(p, viewport, zoom);
    if 0 < t && t < world - viewport then t else current
  }

  /** The camera transform after following the player. */
  function Follow(camT: Transform, player: Transform, cam: Camera): (r: Transform)
    ensures r.x == FollowAxis(camT.x, player.x, cam.vw, cam.ww, cam.zoom)
    ensures r.y == FollowAxis(camT.y, player.y, cam.vh, cam.wh, cam.zoom)
  {
    Transform(FollowAxis(camT.x, player.x, cam.vw, cam.ww, cam.zoom),
              FollowAxis(camT.y, player.y, cam.vh, cam.wh, cam.zoom))
  }

  /** The camera shows only world: its position lies within [0, world - viewport] on both axes. */
  predicate InWorld(camT: Transform, cam: Camera) {
    0 <= camT.x <= cam.ww - cam.vw && 0 <= camT.y <= cam.wh - cam.vh
  }

  lemma FollowPreservesInWorld(camT: Transform, player: Transform, cam: Camera)
    requires InWorld(camT, cam)
    ensures InWorld(Follow(camT, player, cam), cam)
  {
  }

  /** Following the same player position twice changes nothing the second time. */
  lemma FollowIdempotent(camT: Transform, player: Transform, cam: Camera)
    ensures Follow(Follow(camT, player, cam), player, cam) == Follow(camT, player, cam)
  {
  }

  /** The axes are independent: the new x depends only on x-axis data, the new y only on y-axis data. */
  lemma FollowAxesIndependent(camT: Transform, camT': Transform, player: Transform, player': Transform, cam: Camera, cam': Camera)
    requires camT.x == camT'.x && player.x == player'.x && cam.vw == cam'.vw && cam.ww == cam'.ww && cam.zoom == cam'.zoom
    ensures Follow(camT, player, cam).x == Follow(camT', player', cam').x
  {
  }

  /** Whenever the camera moves on an axis, the player sits at the fixed offset from its centre. */
  lemma FollowCentresPlayer(camT: Transform, player: Transform, cam: Camera)
    requires cam.vw >= 0
    requires Follow(camT, player, cam).x != camT.x
    ensures Follow(camT, player, cam).x + cam.vw / 2 - FollowOffset * cam.zoom == player.x
  {
  }

  /** The system on a scene: reads the player's Transform, the camera's Camera
      and Transform (failing if any is missing), and rewrites only the camera's Transform. */
  function Run(s: Scene): (r: Result<Scene, Error>)
    requires s.Valid()
    ensures s.player.None? ==> r == Failure(NoPlayer)
    ensures s.player.Some? && s.mainCamera.None? ==> r == Failure(NoCamera)
    ensures s.player.Some? && s.mainCamera.Some? ==>
      (r.Success? <==>
        && GetTransform(s.registry, s.player.value).Success?
        && GetCamera(s.registry, s.mainCamera.value).Success?
        && GetTransform(s.registry, s.mainCamera.value).Success?)
    ensures r.Success? ==> r.value.Valid() && r.value.player == s.player && r.value.mainCamera == s.mainCamera
    ensures r.Success? ==> r.value.registry.entities.Keys == s.registry.entities.Keys
    ensures r.Success? ==>
      var c := s.mainCamera.value;
      var ent := s.registry.entities[c];
      && r.value.registry.entities[c] == ent.(transform := Some(Follow(ent.transform.value, s.registry.entities[s.player.value].transform.value, ent.camera.value)))
      && forall e :: e in s.registry.entities && e != c ==> r.value.registry.entities[e] == s.registry.entities[e]
  {
    if s.player.None? then Failure(NoPlayer)
    else if s.mainCamera.None? then Failure(NoCamera)
    else
      var playerT :- GetTransform(s.registry, s.player.value);
      var cam :- GetCamera(s.registry, s.mainCamera.value);
      var camT :- GetTransform(s.registry, s.mainCamera.value);
      var reg := Add(s.registry, s.mainCamera.value, TransformComponent(Follow(camT, playerT, cam))).value;
      Success(s.(registry := reg))
  }
}

=== FILE: cint.dfy ===
/** The pieces of C++ integer semantics the game logic depends on. */
module CInt {

  /** An unsigned 32-bit value, as SDL's `Uint32`. */
  type uint32 = x: int | 0 <= x < 0x1_0000_0000

  /** An unsigned 8-bit value, as SDL's `Uint8`. */
  type uint8 = x: int | 0 <= x < 0x100

  /** C++ integer division: the quotient is truncated toward zero, which is
      also what a conversion from `double` to `int` does to a ratio. */
  function TruncDiv(a: int, b: int): (q: int)
    requires b > 0
    ensures a >= 0 ==> 0 <= a - q * b < b
    ensures a < 0 ==> -b < a - q * b <= 0
    ensures (a >= 0) == (q >= 0) || q == 0
  {
    if a >= 0 then a / b else -((-a) / b)
  }

  /** Truncation agrees with Dafny's Euclidean division on non-negative dividends. */
  lemma TruncDivNonNegative(a: int, b: int)
    requires a >= 0 && b > 0
    ensures TruncDiv(a, b) == a / b
  {
  }

  /** Dividing an exact multiple gives the factor back, whatever its sign. */
  lemma TruncDivExact(k: int, b: int)
    requires b > 0
    ensures TruncDiv(k * b, b) == k
  {
    if k >= 0 {
      assert 0 <= k * b - k * b < b;
      TruncDivUnique(k * b, b, k);
    } else {
      assert (-k) * b == -(k * b);
      TruncDivUnique(-(k * b), b, -k);
    }
  }

  /** A non-negative dividend has exactly one quotient with a remainder in [0, b). */
  lemma TruncDivUnique(a: int, b: int, q: int)
    requires a >= 0 && b > 0
    requires 0 <= a - q * b < b
    ensures TruncDiv(a, b) == q
  {
    var q0 := a / b;
    if q > q0 {
      MulMono(q - q0, b);
    } else if q < q0 {
      MulMono(q0 - q, b);
    }
  }

  /** A positive multiple of `b` is at least `b`. */
  lemma MulMono(d: int, b: int)
    requires d >= 1 && b > 0
    ensures d * b >= b
  {
  }

  /** Splitting `q * m + r` with `0 <= r < m` by `m` gives back `q` and `r`. */
  lemma DivModSplit(q: int, r: int, m: int)
    requires q >= 0 && 0 <= r < m
    ensures (q * m + r) / m == q && (q * m + r) % m == r
  {
    TruncDivUnique(q * m + r, m, q);
    TruncDivNonNegative(q * m + r, m);
  }
}

=== FILE: components.dfy ===
/** The plain-data components the systems read and write, and SDL's rectangle. */
module Components {
  import opened Wrappers

  /** World-space position of an entity. */
  datatype Transform = Transform(x: int, y: int)

  /** Velocity in world units per second. */
  datatype Movement = Movement(vx: int, vy: int)

  /** A handle to a texture owned by the renderer; the model never looks inside. */
  type TextureId = nat

  /** A square cell of a texture atlas, drawn for the entity. */
  datatype Sprite = Sprite(x: int, y: int, size: int, texture: TextureId)

  /** Zoom factor, viewport size and world size of the camera. */
  datatype Camera = Camera(zoom: int, vw: int, vh: int, ww: int, wh: int)

  /** An axis-aligned rectangle as passed to `SDL_RenderCopy`. */
  datatype Rect = Rect(x: int, y: int, w: int, h: int)

  /** One `SDL_RenderCopy`: the cell `src` of `texture` drawn into the screen rectangle `dst`. */
  datatype Draw = Draw(texture: TextureId, src: Rect, dst: Rect)

  /** The component types a registry can hold. */
  datatype Kind = TransformKind | MovementKind | SpriteKind | CameraKind

  /** One component value, tagged with its type. */
  datatype Component =
    | TransformComponent(transform: Transform)
    | MovementComponent(movement: Movement)
    | SpriteComponent(sprite: Sprite)
    | CameraComponent(camera: Camera)
  {
    function KindOf(): Kind {
      match this
      case TransformComponent(_) => TransformKind
      case MovementComponent(_) => MovementKind
      case SpriteComponent(_) => SpriteKind
      case CameraComponent(_) => CameraKind
    }
  }

  /** Everything attached to one entity: its label and at most one component of each type. */
  datatype Entity = Entity(
    name: string,
    transform: Option<Transform>,
    movement: Option<Movement>,
    sprite: Option<Sprite>,
    camera: Option<Camera>)
  {
    predicate Has(k: Kind) {
      match k
      case TransformKind => transform.Some?
      case MovementKind => movement.Some?
      case SpriteKind => sprite.Some?
      case CameraKind => camera.Some?
    }

    /** Every entity with a Movement, Sprite or Camera also has a Transform. */
    predicate Anchored() {
      (movement.Some? || sprite.Some? || camera.Some?) ==> transform.Some?
    }
  }
}

=== FILE: game.dfy ===
/** The game as configured: the systems it registers, in the order it
    registers them, and what one frame does with them. */
module Game {
  import opened Wrappers
  import opened Components
  import opened Registry
  import opened Scenes
  import PlayerInput
  import MovementUpdate

  /** Camera parameters of the configured game: zoom 4 over a world of 24 x 19
      tiles of 16 texels each, seen through a viewport the size of the window. */
  const Zoom: int := 4
  const WorldWidth: int := 24 * 16 * 4
  const WorldHeight: int := 19 * 16 * 4

  function ConfiguredCamera(windowWidth: int, windowHeight: int): (c: Camera)
    ensures c.zoom == Zoom && c.vw == windowWidth && c.vh == windowHeight
    ensures c.ww == 1536 && c.wh == 1216
  {
    Camera(Zoom, windowWidth, windowHeight, WorldWidth, WorldHeight)
  }

  /** Setup of the scene's entities: the camera first, then the character.
      (The tile-map setup, registered between them, touches no entity.) */
  function SetupScene(windowWidth: int, windowHeight: int, playerTexture: TextureId): (r: Result<Scene, Error>)
    ensures r.Success?
    ensures Consistent(r.value)
    ensures r.value.registry.entities.Keys == {r.value.mainCamera.value, r.value.player.value}
    ensures GetTransform(r.value.registry, r.value.player.value) == Success(Transform(SpawnX, SpawnY))
    ensures GetTransform(r.value.registry, r.value.mainCamera.value) == Success(Transform(0, 0))
    ensures GetCamera(r.value.registry, r.value.mainCamera.value) == Success(ConfiguredCamera(windowWidth, windowHeight))
  {
    var s1 := CameraSetup(EmptyScene(), ConfiguredCamera(windowWidth, windowHeight));
    CharacterSetup(s1, playerTexture)
  }

  /** What holds between frames: the scene is valid, the
      player exists with a Movement and a Sprite, its velocity is one of the
      values the input system sets, and every moving entity is inside the play area. */
  predicate Consistent(s: Scene) {
    && s.Valid()
    && s.player.Some?
    && s.mainCamera.Some?
    && GetMovement(s.registry, s.player.value).Success?
    && GetSprite(s.registry, s.player.value).Success?
    && PlayerInput.InSpeedSet(s.registry.entities[s.player.value].movement.value)
    && MovementUpdate.MoversInPlayArea(s.registry)
  }

  /** The input phase of a frame: every event, in order, to the player input system. */
  function InputAll(s: Scene, evs: seq<PlayerInput.Event>): (r: Result<Scene, Error>)
    requires s.Valid()
    ensures |evs| > 0 && s.player.None? ==> r == Failure(NoPlayer)
    ensures (&& |evs| > 0 && s.player.Some?
             && !(GetMovement(s.registry, s.player.value).Success? && GetSprite(s.registry, s.player.value).Success?))
            ==> r.Failure?
    ensures r.Success? ==> r.value.Valid() && r.value.player == s.player && r.value.mainCamera == s.mainCamera
    ensures r.Success? ==> r.value.registry.entities.Keys == s.registry.entities.Keys
    ensures r.Success? && s.player.Some? ==>
      var p := s.player.value;
      && forall e :: e in s.registry.entities && e != p ==> r.value.registry.entities[e] == s.registry.entities[e]
    ensures r.Success? && s.player.Some? ==>
      var p := s.player.value;
      r.value.registry.entities[p] == s.registry.entities[p].(movement := r.value.registry.entities[p].movement)
    ensures s.player.Some? && GetMovement(s.registry, s.player.value).Success? && GetSprite(s.registry, s.player.value).Success? ==>
      && r.Success?
      && r.value.registry.entities[s.player.value].movement
           == Some(PlayerInput.OnEvents(s.registry.entities[s.player.value].movement.value, evs))
    decreases |evs|
  {
    if |evs| == 0 then Success(s)
    else
      var s1 :- PlayerInput.Run(s, evs[0]);
      InputAll(s1, evs[1..])
  }

  /** The game loop's state: the scene and the flag the quit event clears. */
  datatype GameState = GameState(scene: Scene, isRunning: bool)

  /** The state right after initialisation and setup: running, with the configured scene. */
  function Start(windowWidth: int, windowHeight: int, playerTexture: TextureId): (g: GameState)
    ensures g.isRunning && Consistent(g.scene)
  {
    GameState(SetupScene(windowWidth, windowHeight, playerTexture).value, true)
  }

  /** One frame: the input phase (a quit event clears the running flag, and
      every event, quit included, still goes to the input systems), then the
      update phase, in which the only registered update system is movement
      (camera follow is not registered). */
  function Frame(g: GameState, evs: seq<PlayerInput.Event>, dtMs: nat): (r: Result<GameState, Error>)
    requires g.scene.Valid()
    ensures r.Success? ==> r.value.scene.Valid()
    ensures r.Success? ==> (r.value.isRunning <==> g.isRunning && PlayerInput.Quit !in evs)
    ensures r.Success? ==>
      && r.value.scene.player == g.scene.player && r.value.scene.mainCamera == g.scene.mainCamera
      && r.value.scene.registry.entities.Keys == g.scene.registry.entities.Keys
    ensures r.Success? ==> forall e :: e in g.scene.registry.entities && Some(e) != g.scene.player ==>
      r.value.scene.registry.entities[e] == MovementUpdate.StepEntity(g.scene.registry.entities[e], dtMs)
    ensures Consistent(g.scene) ==>
      && r.Success?
      && var p := g.scene.player.value;
         var m := PlayerInput.OnEvents(g.scene.registry.entities[p].movement.value, evs);
         && r.value.scene.registry.entities[p].movement == Some(m)
         && r.value.scene.registry.entities[p].transform == Some(MovementUpdate.Step(g.scene.registry.entities[p].transform.value, m, dtMs))
         && r.value.scene.registry.entities[p] == MovementUpdate.StepEntity(g.scene.registry.entities[p].(movement := Some(m)), dtMs)
  {
    var s1 :- InputAll(g.scene, evs);
    Success(GameState(s1.(registry := MovementUpdate.Run(s1.registry, dtMs)), g.isRunning && PlayerInput.Quit !in evs))
  }

  /** A consistent scene stays consistent through a frame, whatever the events and elapsed time. */
  lemma FramePreservesConsistent(g: GameState, evs: seq<PlayerInput.Event>, dtMs: nat)
    requires Consistent(g.scene)
    ensures Frame(g, evs, dtMs).Success?
    ensures Consistent(Frame(g, evs, dtMs).value.scene)
  {
    var s := g.scene;
    var p := s.player.value;
    var s1 := InputAll(s, evs).value;
    PlayerInput.OnEventsKeepsSpeedSet(s.registry.entities[p].movement.value, evs);
    assert MovementUpdate.MoversInPlayArea(s1.registry) by {
      forall e | e in s1.registry.entities && MovementUpdate.Moves(s1.registry.entities[e])
        ensures MovementUpdate.InPlayArea(s1.registry.entities[e].transform.value)
      {
        assert s1.registry.entities[e].transform == s.registry.entities[e].transform;
      }
    }
    MovementUpdate.RunPreservesPlayArea(s1.registry, dtMs);
  }

  /** The input and elapsed time of one frame. */
  datatype FrameInput = FrameInput(events: seq<PlayerInput.Event>, dtMs: nat)

  /** The game loop: frames run while the game is running. */
  function RunFrames(g: GameState, frames: seq<FrameInput>): (r: Result<GameState, Error>)
    requires g.scene.Valid()
    decreases |frames|
  {
    if |frames| == 0 || !g.isRunning then Success(g)
    else
      var g1 :- Frame(g, frames[0].events, frames[0].dtMs);
      RunFrames(g1, frames[1..])
  }

  /** Through any frames the scene stays consistent. */
  lemma {:induction false} ConsistentThroughFrames(g: GameState, frames: seq<FrameInput>)
    requires Consistent(g.scene)
    ensures RunFrames(g, frames).Success?
    ensures Consistent(RunFrames(g, frames).value.scene)
    decreases |frames|
  {
    if |frames| > 0 && g.isRunning {
      FramePreservesConsistent(g, frames[0].events, frames[0].dtMs);
      ConsistentThroughFrames(Frame(g, frames[0].events, frames[0].dtMs).value, frames[1..]);
    }
  }

  /** No frame is played after the one whose events contain a quit. */
  lemma QuitEndsTheLoop(g: GameState, f: FrameInput, rest: seq<FrameInput>)
    requires Consistent(g.scene) && g.isRunning && PlayerInput.Quit in f.events
    ensures Frame(g, f.events, f.dtMs).Success?
    ensures !Frame(g, f.events, f.dtMs).value.isRunning
    ensures RunFrames(g, [f] + rest) == Frame(g, f.events, f.dtMs)
  {
    FramePreservesConsistent(g, f.events, f.dtMs);
    assert ([f] + rest)[0] == f && ([f] + rest)[1..] == rest;
  }

  /** Without a quit event the game is still running after every frame. */
  lemma {:induction false} RunningWithoutQuit(g: GameState, frames: seq<FrameInput>)
    requires Consistent(g.scene) && g.isRunning
    requires forall i :: 0 <= i < |frames| ==> PlayerInput.Quit !in frames[i].events
    ensures RunFrames(g, frames).Success? && RunFrames(g, frames).value.isRunning
    decreases |frames|
  {
    if |frames| > 0 {
      FramePreservesConsistent(g, frames[0].events, frames[0].dtMs);
      var g1 := Frame(g, frames[0].events, frames[0].dtMs).value;
      assert forall i :: 0 <= i < |frames[1..]| ==> frames[1..][i] == frames[i + 1];
      RunningWithoutQuit(g1, frames[1..]);
    }
  }

  /** From setup on, through any frames, the player never leaves the play area. */
  lemma PlayerStaysInPlayArea(windowWidth: int, windowHeight: int, playerTexture: TextureId, frames: seq<FrameInput>)
    ensures var g := Start(windowWidth, windowHeight, playerTexture);
      && RunFrames(g, frames).Success?
      && var s := RunFrames(g, frames).value.scene;
         && Consistent(s)
         && MovementUpdate.InPlayArea(s.registry.entities[s.player.value].transform.value)
  {
    ConsistentThroughFrames(Start(windowWidth, windowHeight, playerTexture), frames);
  }
}

=== FILE: input.dfy ===
/** The player input system: a state machine over the player's velocity. */
module PlayerInput {
  import opened Wrappers
  import opened Components
  import opened Registry
  import opened Scenes

  /** The keys the system reacts to; every other key is `OtherKey`. */
  datatype Key = KeyA | KeyW | KeyS | KeyD | OtherKey

  /** An input event: a key pressed, a key released, the window's quit
      request, or anything else (mouse, window, ...). */
  datatype Event = KeyDown(key: Key) | KeyUp(key: Key) | Quit | OtherEvent

  const Speed: int := 400

  /** The velocity after one event, as the source is written: on release, `w`
      clears the horizontal axis and `d` the vertical one, and `s` falls
      through into the `d` case. */
  function OnEvent(m: Movement, ev: Event): (r: Movement)
    ensures ev == KeyDown(KeyA) ==> r == m.(vx := -Speed)
    ensures ev == KeyDown(KeyD) ==> r == m.(vx := Speed)
    ensures ev == KeyDown(KeyW) ==> r == m.(vy := -Speed)
    ensures ev == KeyDown(KeyS) ==> r == m.(vy := Speed)
    ensures ev == KeyUp(KeyA) || ev == KeyUp(KeyW) ==> r == m.(vx := 0)
    ensures ev == KeyUp(KeyS) || ev == KeyUp(KeyD) ==> r == m.(vy := 0)
    ensures ev.OtherEvent? || ev.Quit? || ev.key == OtherKey ==> r == m
  {
    match ev
    case KeyDown(k) =>
      (match k
       case KeyA => m.(vx := -Speed)
       case KeyW => m.(vy := -Speed)
       case KeyS => m.(vy := Speed)
       case KeyD => m.(vx := Speed)
       case OtherKey => m)
    case KeyUp(k) =>
      (match k
       case KeyA => m.(vx := 0)
       case KeyW => m.(vx := 0)
       case KeyS => m.(vy := 0)
       case KeyD => m.(vy := 0)
       case OtherKey => m)
    case Quit => m
    case OtherEvent => m
  }

  /** The velocity after a sequence of events, delivered in order. */
  function OnEvents(m: Movement, evs: seq<Event>): Movement
    decreases |evs|
  {
    if |evs| == 0 then m else OnEvents(OnEvent(m, evs[0]), evs[1..])
  }

  /** Each velocity component is one of -400, 0, 400. */
  predicate SpeedAxis(v: int) {
    v == -Speed || v == 0 || v == Speed
  }

  predicate InSpeedSet(m: Movement) {
    SpeedAxis(m.vx) && SpeedAxis(m.vy)
  }

  /** Starting at rest or at full speed, the velocity never takes any other value. */
  lemma {:induction false} OnEventsKeepsSpeedSet(m: Movement, evs: seq<Event>)
    requires InSpeedSet(m)
    ensures InSpeedSet(OnEvents(m, evs))
    decreases |evs|
  {
    if |evs| > 0 {
      OnEventsKeepsSpeedSet(OnEvent(m, evs[0]), evs[1..]);
    }
  }

  /** Delivering events in two batches is the same as delivering them at once. */
  lemma {:induction false} OnEventsAppend(m: Movement, a: seq<Event>, b: seq<Event>)
    ensures OnEvents(m, a + b) == OnEvents(OnEvents(m, a), b)
    decreases |a|
  {
    if |a| > 0 {
      assert (a + b)[1..] == a[1..] + b;
      OnEventsAppend(OnEvent(m, a[0]), a[1..], b);
    } else {
      assert a + b == b;
    }
  }

  /** A repeated event has no further effect: key repeat does not accelerate. */
  lemma OnEventIdempotent(m: Movement, ev: Event)
    ensures OnEvent(OnEvent(m, ev), ev) == OnEvent(m, ev)
  {
  }

  /** Pressing and releasing `a` or `s` stops the axis that key drove. */
  lemma PressReleaseStops(m: Movement)
    ensures OnEvents(m, [KeyDown(KeyA), KeyUp(KeyA)]) == m.(vx := 0)
    ensures OnEvents(m, [KeyDown(KeyS), KeyUp(KeyS)]) == m.(vy := 0)
  {
  }

  /** As written, releasing `d` does not stop horizontal motion and releasing
      `w` does not stop vertical motion; each clears the other axis instead. */
  lemma PressReleaseMismatch(m: Movement)
    ensures OnEvents(m, [KeyDown(KeyD), KeyUp(KeyD)]) == Movement(Speed, 0)
    ensures OnEvents(m, [KeyDown(KeyW), KeyUp(KeyW)]) == Movement(0, -Speed)
  {
  }

  /** The system on a scene: reads the player's Movement and Sprite (failing
      if either is missing) and updates only the player's velocity. */
  function Run(s: Scene, ev: Event): (r: Result<Scene, Error>)
    requires s.Valid()
    ensures s.player.None? ==> r == Failure(NoPlayer)
    ensures s.player.Some? ==>
      (r.Success? <==> GetMovement(s.registry, s.player.value).Success? && GetSprite(s.registry, s.player.value).Success?)
    ensures r.Success? ==> r.value.Valid() && r.value.player == s.player && r.value.mainCamera == s.mainCamera
    ensures r.Success? ==> r.value.registry.next == s.registry.next && r.value.registry.entities.Keys == s.registry.entities.Keys
    ensures r.Success? ==>
      var p := s.player.value;
      && GetMovement(r.value.registry, p) == Success(OnEvent(s.registry.entities[p].movement.value, ev))
      && r.value.registry.entities[p] == s.registry.entities[p].(movement := r.value.registry.entities[p].movement)
      && forall e :: e in s.registry.entities && e != p ==> r.value.registry.entities[e] == s.registry.entities[e]
  {
    if s.player.None? then Failure(NoPlayer)
    else
      var p := s.player.value;
      var m :- GetMovement(s.registry, p);
      var _ :- GetSprite(s.registry, p);
      var reg := Add(s.registry, p, MovementComponent(OnEvent(m, ev))).value;
      Success(s.(registry := reg))
  }
}

=== FILE: movement.dfy ===
/** The movement update system: velocity integration with rejection at the
    play-area bounds. */
module MovementUpdate {
  import opened Wrappers
  import opened CInt
  import opened Components
  import opened Registry

  /** The play area; a position is admitted only strictly inside it. */
  const MinX: int := 130
  const MaxX: int := 1200
  const MinY: int := 245
  const MaxY: int := 890

  predicate InPlayArea(t: Transform) {
    MinX < t.x < MaxX && MinY < t.y < MaxY
  }

  /** Milliseconds per second: a frame's delta time is `dtMs / 1000` seconds. */
  const MsPerSecond: int := 1000

  /** One coordinate after `dtMs` milliseconds at velocity `v`: the exact value
      `p + v * dtMs / 1000`, truncated toward zero as the conversion to `int` does. */
  function Advance(p: int, v: int, dtMs: nat): (r: int)
    ensures -MsPerSecond < MsPerSecond * r - (MsPerSecond * p + v * dtMs) < MsPerSecond
    ensures (v == 0 || dtMs == 0) ==> r == p
    ensures MsPerSecond * p + v * dtMs >= 0 ==> MsPerSecond * r <= MsPerSecond * p + v * dtMs
    ensures MsPerSecond * p + v * dtMs < 0 ==> MsPerSecond * r >= MsPerSecond * p + v * dtMs
  {
    TruncDivExact(p, MsPerSecond);
    TruncDiv(MsPerSecond * p + v * dtMs, MsPerSecond)
  }

  /** The position the entity would reach this frame if nothing stopped it. */
  function Candidate(t: Transform, v: Movement, dtMs: nat): Transform {
    Transform(Advance(t.x, v.vx, dtMs), Advance(t.y, v.vy, dtMs))
  }

  /** One entity's step: both coordinates move to the candidate, or neither does. */
  function Step(t: Transform, v: Movement, dtMs: nat): (r: Transform)
    ensures r == t || (r == Candidate(t, v, dtMs) && InPlayArea(r))
    ensures InPlayArea(Candidate(t, v, dtMs)) ==> r == Candidate(t, v, dtMs)
    ensures r != t ==> InPlayArea(r)
  {
    var c := Candidate(t, v, dtMs);
    if InPlayArea(c) then c else t
  }

  /** The entity takes part in the movement view: it has a Transform and a Movement. */
  predicate Moves(ent: Entity) {
    ent.transform.Some? && ent.movement.Some?
  }

  function StepEntity(ent: Entity, dtMs: nat): (r: Entity)
    ensures r.name == ent.name && r.movement == ent.movement && r.sprite == ent.sprite && r.camera == ent.camera
    ensures r.transform.Some? == ent.transform.Some?
    ensures !Moves(ent) ==> r == ent
  {
    if Moves(ent) then ent.(transform := Some(Step(ent.transform.value, ent.movement.value, dtMs)))
    else ent
  }

  /** The system over the whole registry for a frame of `dtMs` milliseconds. */
  function Run(reg: Registry, dtMs: nat): (r: Registry)
    ensures r.next == reg.next && r.entities.Keys == reg.entities.Keys
    ensures forall e :: e in reg.entities ==>
      && r.entities[e].movement == reg.entities[e].movement
      && r.entities[e].sprite == reg.entities[e].sprite
      && r.entities[e].camera == reg.entities[e].camera
      && r.entities[e].name == reg.entities[e].name
    ensures forall e :: e in reg.entities && !Moves(reg.entities[e]) ==> r.entities[e] == reg.entities[e]
    ensures forall e :: e in reg.entities && Moves(reg.entities[e]) ==>
      r.entities[e].transform == Some(Step(reg.entities[e].transform.value, reg.entities[e].movement.value, dtMs))
    ensures reg.Valid() ==> r.Valid()
    ensures reg.Anchored() ==> r.Anchored()
  {
    Registry(map e | e in reg.entities :: StepEntity(reg.entities[e], dtMs), reg.next)
  }

  /** The entities the system touches are exactly the view over Transform and Movement. */
  lemma RunTouchesOnlyView(reg: Registry, dtMs: nat, e: EntityId)
    requires e in reg.entities && Run(reg, dtMs).entities[e] != reg.entities[e]
    ensures e in View(reg, {TransformKind, MovementKind})
  {
  }

  /** All or nothing: the step commits both candidate coordinates exactly when
      all four bound checks pass, and otherwise moves neither axis. */
  lemma StepAllOrNothing(t: Transform, v: Movement, dtMs: nat)
    ensures var c := Candidate(t, v, dtMs);
      && (Step(t, v, dtMs) == c <==> InPlayArea(c) || c == t)
      && (Step(t, v, dtMs) != c ==> Step(t, v, dtMs) == t)
  {
  }

  /** A position inside the play area stays inside it, whatever the velocity and delta time. */
  lemma StepPreservesPlayArea(t: Transform, v: Movement, dtMs: nat)
    requires InPlayArea(t)
    ensures InPlayArea(Step(t, v, dtMs))
  {
  }

  /** A frame with no elapsed time, or an entity at rest, moves nothing. */
  lemma StepAtRest(t: Transform, v: Movement, dtMs: nat)
    requires dtMs == 0 || (v.vx == 0 && v.vy == 0)
    ensures Step(t, v, dtMs) == t
  {
  }

  /** Every moving entity inside the play area before the frame is inside it after. */
  predicate MoversInPlayArea(reg: Registry) {
    forall e :: e in reg.entities && Moves(reg.entities[e]) ==> InPlayArea(reg.entities[e].transform.value)
  }

  lemma RunPreservesPlayArea(reg: Registry, dtMs: nat)
    requires MoversInPlayArea(reg)
    ensures MoversInPlayArea(Run(reg, dtMs))
  {
    var r := Run(reg, dtMs);
    forall e | e in r.entities && Moves(r.entities[e])
      ensures InPlayArea(r.entities[e].transform.value)
    {
      StepPreservesPlayArea(reg.entities[e].transform.value, reg.entities[e].movement.value, dtMs);
    }
  }

  /** A zero delta time leaves the whole registry as it was. */
  lemma RunZeroDeltaIsIdentity(reg: Registry)
    ensures Run(reg, 0) == reg
  {
    var r := Run(reg, 0);
    forall e | e in reg.entities
      ensures r.entities[e] == reg.entities[e]
    {
      if Moves(reg.entities[e]) {
        StepAtRest(reg.entities[e].transform.value, reg.entities[e].movement.value, 0);
      }
    }
    assert r.entities == reg.entities;
  }

  /** Scenario: 0.1 s at 400 units/s to the right from (500, 500) lands on (540, 500). */
  lemma StepInsideExample()
    ensures Step(Transform(500, 500), Movement(400, 0), 100) == Transform(540, 500)
  {
  }

  /** Scenario: the same move from (1195, 500) would reach x = 1235 and is rejected. */
  lemma StepRejectedExample()
    ensures Candidate(Transform(1195, 500), Movement(400, 0), 100) == Transform(1235, 500)
    ensures Step(Transform(1195, 500), Movement(400, 0), 100) == Transform(1195, 500)
  {
  }
}

=== FILE: pixels.dfy ===
/** The channels of a 32-bit pixel value `0xAARRGGBB`, read with shifts and
    masks in the source and with division and remainder here. */
module Pixels {
  import opened CInt

  /** Bits 16..23: `(c >> 16) & 0xff`. */
  function Red(c: uint32): uint8 {
    (c / 0x1_0000) % 0x100
  }

  /** Bits 8..15: `(c >> 8) & 0xff`. */
  function Green(c: uint32): uint8 {
    (c / 0x100) % 0x100
  }

  /** Bits 0..7: `c & 0xff`. */
  function Blue(c: uint32): uint8 {
    c % 0x100
  }

  /** Bits 24..31. */
  function Alpha(c: uint32): uint8 {
    c / 0x100_0000
  }

  /** The pixel with the given channels: `a << 24 | r << 16 | g << 8 | b`. */
  function Pack(a: uint8, r: uint8, g: uint8, b: uint8): (c: uint32)
    ensures Alpha(c) == a && Red(c) == r && Green(c) == g && Blue(c) == b
  {
    var c := a * 0x100_0000 + r * 0x1_0000 + g * 0x100 + b;
    DivModSplit(a * 0x1_0000 + r * 0x100 + g, b, 0x100);
    DivModSplit(a * 0x100 + r, g, 0x100);
    DivModSplit(a * 0x100 + r, g * 0x100 + b, 0x1_0000);
    DivModSplit(a, r, 0x100);
    DivModSplit(a, r * 0x1_0000 + g * 0x100 + b, 0x100_0000);
    c
  }

  /** A pixel is determined by its four channels. */
  lemma PackChannels(c: uint32)
    ensures Pack(Alpha(c), Red(c), Green(c), Blue(c)) == c
  {
    var hi := c / 0x1_0000;
    var lo := c % 0x1_0000;
    assert c == hi * 0x1_0000 + lo;
    assert hi == Alpha(c) * 0x100 + Red(c);
    assert lo == Green(c) * 0x100 + Blue(c);
  }
}

=== FILE: registry.dfy ===
/** The registry: the store that owns every entity and its components. */
module Registry {
  import opened Wrappers
  import opened Components

  /** An entity identifier; identifiers are handed out in increasing order. */
  type EntityId = nat

  /** The ways a registry access can break the runtime's contract. */
  datatype Error =
    | NoSuchEntity(id: EntityId)
    | MissingComponent(id: EntityId, kind: Kind)
    | NoPlayer
    | NoCamera

  datatype Registry = Registry(entities: map<EntityId, Entity>, next: EntityId) {

    /** Every live identifier lies below the next one to be handed out. */
    predicate Valid() {
      forall e :: e in entities ==> e < next
    }

    /** Every live entity keeps a Transform alongside its other components. */
    predicate Anchored() {
      forall e :: e in entities ==> entities[e].Anchored()
    }
  }

  function Empty(): (r: Registry)
    ensures r.Valid() && r.Anchored()
    ensures r.entities == map[]
  {
    Registry(map[], 0)
  }

  /** The component of kind `k` attached to `ent`, if any. */
  function Slot(ent: Entity, k: Kind): (r: Option<Component>)
    ensures r.Some? <==> ent.Has(k)
    ensures r.Some? ==> r.value.KindOf() == k
  {
    match k
    case TransformKind => if ent.transform.Some? then Some(TransformComponent(ent.transform.value)) else None
    case MovementKind => if ent.movement.Some? then Some(MovementComponent(ent.movement.value)) else None
    case SpriteKind => if ent.sprite.Some? then Some(SpriteComponent(ent.sprite.value)) else None
    case CameraKind => if ent.camera.Some? then Some(CameraComponent(ent.camera.value)) else None
  }

  /** Puts `c` into its slot of `ent`, replacing what was there. */
  function Attach(ent: Entity, c: Component): (r: Entity)
    ensures Slot(r, c.KindOf()) == Some(c)
    ensures forall k :: k != c.KindOf() ==> Slot(r, k) == Slot(ent, k)
    ensures r.name == ent.name
  {
    match c
    case TransformComponent(t) => ent.(transform := Some(t))
    case MovementComponent(m) => ent.(movement := Some(m))
    case SpriteComponent(s) => ent.(sprite := Some(s))
    case CameraComponent(cam) => ent.(camera := Some(cam))
  }

  /** Empties the slot of kind `k` of `ent`. */
  function Detach(ent: Entity, k: Kind): (r: Entity)
    ensures Slot(r, k) == None
    ensures forall k' :: k' != k ==> Slot(r, k') == Slot(ent, k')
    ensures r.name == ent.name
  {
    match k
    case TransformKind => ent.(transform := None)
    case MovementKind => ent.(movement := None)
    case SpriteKind => ent.(sprite := None)
    case CameraKind => ent.(camera := None)
  }

  /** Allocates a fresh entity carrying only its name and a Transform at (x, y). */
  function CreateEntity(reg: Registry, name: string, x: int, y: int): (r: (Registry, EntityId))
    requires reg.Valid()
    ensures r.0.Valid()
    ensures r.1 !in reg.entities && r.1 in r.0.entities
    ensures r.0.entities.Keys == reg.entities.Keys + {r.1}
    ensures forall e :: e in reg.entities ==> r.0.entities[e] == reg.entities[e]
    ensures r.0.entities[r.1] == Entity(name, Some(Transform(x, y)), None, None, None)
    ensures reg.Anchored() ==> r.0.Anchored()
  {
    var id := reg.next;
    (Registry(reg.entities[id := Entity(name, Some(Transform(x, y)), None, None, None)], id + 1), id)
  }

  /** Attaches `c` to entity `e`, overwriting a component of the same type. */
  function Add(reg: Registry, e: EntityId, c: Component): (r: Result<Registry, Error>)
    ensures r.Failure? <==> e !in reg.entities
    ensures r.Failure? ==> r.error == NoSuchEntity(e)
    ensures r.Success? ==> r.value.next == reg.next && r.value.entities.Keys == reg.entities.Keys
    ensures r.Success? ==> forall e' :: e' in reg.entities && e' != e ==> r.value.entities[e'] == reg.entities[e']
  {
    if e in reg.entities then Success(reg.(entities := reg.entities[e := Attach(reg.entities[e], c)]))
    else Failure(NoSuchEntity(e))
  }

  /** Detaches the component of kind `k` from `e`; nothing happens when it is absent. */
  function Remove(reg: Registry, e: EntityId, k: Kind): (r: Result<Registry, Error>)
    ensures r.Failure? <==> e !in reg.entities
    ensures r.Success? ==> r.value.next == reg.next && r.value.entities.Keys == reg.entities.Keys
    ensures r.Success? ==> forall e' :: e' in reg.entities && e' != e ==> r.value.entities[e'] == reg.entities[e']
    ensures r.Success? && !reg.entities[e].Has(k) ==> r.value == reg
    ensures r.Success? ==> r.value.entities[e].name == reg.entities[e].name
    ensures r.Success? ==> forall k' :: k' != k ==> Slot(r.value.entities[e], k') == Slot(reg.entities[e], k')
  {
    if e in reg.entities then Success(reg.(entities := reg.entities[e := Detach(reg.entities[e], k)]))
    else Failure(NoSuchEntity(e))
  }

  /** The component of kind `k` of `e`, failing when either is missing. */
  function Get(reg: Registry, e: EntityId, k: Kind): (r: Result<Component, Error>)
    ensures r.Success? <==> e in reg.entities && reg.entities[e].Has(k)
    ensures r.Success? ==> r.value.KindOf() == k
    ensures e in reg.entities && !reg.entities[e].Has(k) ==> r == Failure(MissingComponent(e, k))
  {
    if e !in reg.entities then Failure(NoSuchEntity(e))
    else match Slot(reg.entities[e], k)
      case Some(c) => Success(c)
      case None => Failure(MissingComponent(e, k))
  }

  function GetTransform(reg: Registry, e: EntityId): (r: Result<Transform, Error>)
    ensures r.Success? <==> Get(reg, e, TransformKind).Success?
    ensures r.Success? ==> Get(reg, e, TransformKind) == Success(TransformComponent(r.value))
  {
    match Get(reg, e, TransformKind)
    case Success(TransformComponent(t)) => Success(t)
    case Success(_) => Failure(MissingComponent(e, TransformKind))
    case Failure(err) => Failure(err)
  }

  function GetMovement(reg: Registry, e: EntityId): (r: Result<Movement, Error>)
    ensures r.Success? <==> Get(reg, e, MovementKind).Success?
    ensures r.Success? ==> Get(reg, e, MovementKind) == Success(MovementComponent(r.value))
  {
    match Get(reg, e, MovementKind)
    case Success(MovementComponent(m)) => Success(m)
    case Success(_) => Failure(MissingComponent(e, MovementKind))
    case Failure(err) => Failure(err)
  }

  function GetSprite(reg: Registry, e: EntityId): (r: Result<Sprite, Error>)
    ensures r.Success? <==> Get(reg, e, SpriteKind).Success?
    ensures r.Success? ==> Get(reg, e, SpriteKind) == Success(SpriteComponent(r.value))
  {
    match Get(reg, e, SpriteKind)
    case Success(SpriteComponent(s)) => Success(s)
    case Success(_) => Failure(MissingComponent(e, SpriteKind))
    case Failure(err) => Failure(err)
  }

  function GetCamera(reg: Registry, e: EntityId): (r: Result<Camera, Error>)
    ensures r.Success? <==> Get(reg, e, CameraKind).Success?
    ensures r.Success? ==> Get(reg, e, CameraKind) == Success(CameraComponent(r.value))
  {
    match Get(reg, e, CameraKind)
    case Success(CameraComponent(c)) => Success(c)
    case Success(_) => Failure(MissingComponent(e, CameraKind))
    case Failure(err) => Failure(err)
  }

  /** The entities holding every component type in `ks`. */
  function View(reg: Registry, ks: set<Kind>): (r: set<EntityId>)
    ensures forall e :: e in r <==> e in reg.entities && forall k :: k in ks ==> reg.entities[e].Has(k)
  {
    set e | e in reg.entities && forall k :: k in ks ==> reg.entities[e].Has(k)
  }

  /** Reading back a component just attached yields it. */
  lemma GetAfterAdd(reg: Registry, e: EntityId, c: Component)
    requires e in reg.entities
    ensures Add(reg, e, c).Success?
    ensures Get(Add(reg, e, c).value, e, c.KindOf()) == Success(c)
  {
  }

  /** Attaching a component leaves the other slots of the entity as they were. */
  lemma AddKeepsOtherKinds(reg: Registry, e: EntityId, c: Component, k: Kind)
    requires e in reg.entities && k != c.KindOf()
    ensures Get(Add(reg, e, c).value, e, k) == Get(reg, e, k)
  {
  }

  /** After a removal the component is reported missing. */
  lemma GetAfterRemove(reg: Registry, e: EntityId, k: Kind)
    requires e in reg.entities
    ensures Get(Remove(reg, e, k).value, e, k) == Failure(MissingComponent(e, k))
  {
  }

  /** Removing what was just attached to an entity that lacked it restores the registry. */
  lemma RemoveUndoesAdd(reg: Registry, e: EntityId, c: Component)
    requires e in reg.entities && !reg.entities[e].Has(c.KindOf())
    ensures Remove(Add(reg, e, c).value, e, c.KindOf()) == Success(reg)
  {
    var ent := reg.entities[e];
    var back := Detach(Attach(ent, c), c.KindOf());
    assert back == ent by {
      match c
      case TransformComponent(_) =>
      case MovementComponent(_) =>
      case SpriteComponent(_) =>
      case CameraComponent(_) =>
    }
    var added := Add(reg, e, c).value;
    assert added.entities[e] == Attach(ent, c);
    assert Remove(added, e, c.KindOf()).value.entities == reg.entities[e := back];
    assert reg.entities[e := back] == reg.entities;
  }

  /** A registry with no entities has an empty view for every combination of types. */
  lemma EmptyView(ks: set<Kind>)
    ensures View(Empty(), ks) == {}
  {
  }
}

=== FILE: scene.dfy ===
/** A scene: the registry plus the two distinguished entities, and the two
    setup systems that create them. */
module Scenes {
  import opened Wrappers
  import opened Components
  import opened Registry

  datatype Scene = Scene(registry: Registry, player: Option<EntityId>, mainCamera: Option<EntityId>) {

    /** Identifiers are fresh, every entity keeps its Transform, and the
        distinguished entities, once set, are live. */
    predicate Valid() {
      && registry.Valid()
      && registry.Anchored()
      && (player.Some? ==> player.value in registry.entities)
      && (mainCamera.Some? ==> mainCamera.value in registry.entities)
    }
  }

  /** A scene before any setup system has run. */
  function EmptyScene(): (s: Scene)
    ensures s.Valid() && s.registry.entities == map[]
  {
    Scene(Empty(), None, None)
  }

  const SpawnX: int := 200
  const SpawnY: int := 250
  const PlayerSpriteSize: int := 50

  /** Camera setup: a fresh entity at the origin holding the given camera
      parameters becomes the scene's main camera. */
  function CameraSetup(s: Scene, cam: Camera): (r: Scene)
    requires s.Valid()
    ensures r.Valid()
    ensures r.mainCamera.Some? && r.mainCamera.value !in s.registry.entities
    ensures GetTransform(r.registry, r.mainCamera.value) == Success(Transform(0, 0))
    ensures GetCamera(r.registry, r.mainCamera.value) == Success(cam)
    ensures r.registry.entities[r.mainCamera.value].movement.None?
    ensures r.registry.entities[r.mainCamera.value].sprite.None?
    ensures r.player == s.player
    ensures r.registry.entities.Keys == s.registry.entities.Keys + {r.mainCamera.value}
    ensures forall e :: e in s.registry.entities ==> e in r.registry.entities && r.registry.entities[e] == s.registry.entities[e]
  {
    var created := CreateEntity(s.registry, "CAMERA", 0, 0);
    var id := created.1;
    var reg := Add(created.0, id, CameraComponent(cam)).value;
    Scene(reg, s.player, Some(id))
  }

  /** Character setup: needs the main camera to carry a Camera component, then
      creates the player at the spawn point, at rest, drawn from the corner
      cell of `texture`. */
  function CharacterSetup(s: Scene, texture: TextureId): (r: Result<Scene, Error>)
    requires s.Valid()
    ensures s.mainCamera.None? ==> r == Failure(NoCamera)
    ensures s.mainCamera.Some? ==> (r.Success? <==> GetCamera(s.registry, s.mainCamera.value).Success?)
    ensures r.Success? ==> r.value.Valid()
    ensures r.Success? ==> r.value.mainCamera == s.mainCamera
    ensures r.Success? ==> r.value.player.Some? && r.value.player.value !in s.registry.entities
    ensures r.Success? ==> r.value.registry.entities.Keys == s.registry.entities.Keys + {r.value.player.value}
    ensures r.Success? ==> r.value.registry.entities[r.value.player.value].camera.None?
    ensures r.Success? ==>
      var p := r.value.player.value;
      && GetTransform(r.value.registry, p) == Success(Transform(SpawnX, SpawnY))
      && GetMovement(r.value.registry, p) == Success(Movement(0, 0))
      && GetSprite(r.value.registry, p) == Success(Sprite(0, 0, PlayerSpriteSize, texture))
    ensures r.Success? ==> forall e :: e in s.registry.entities ==> e in r.value.registry.entities && r.value.registry.entities[e] == s.registry.entities[e]
  {
    if s.mainCamera.None? then Failure(NoCamera)
    else
      var _ :- GetCamera(s.registry, s.mainCamera.value);
      var created := CreateEntity(s.registry, "PLAYER", SpawnX, SpawnY);
      var id := created.1;
      var reg1 := Add(created.0, id, MovementComponent(Movement(0, 0))).value;
      var reg2 := Add(reg1, id, SpriteComponent(Sprite(0, 0, PlayerSpriteSize, texture))).value;
      Success(Scene(reg2, Some(id), s.mainCamera))
  }
}

=== FILE: shaders.dfy ===
/** The two per-pixel colour transforms of the game: a darkening shader and a
    background key that whitens one sentinel colour. */
module Shaders {
  import opened CInt
  import opened Pixels

  /** How much each channel is darkened. */
  const Shadow: int := 30

  /** `0xFFFFFF`: opaque-less white. */
  const White: uint32 := 16777215

  /** `0xCD55CF`: the magenta key colour painted where a texture is background. */
  const Key: uint32 := 13456847

  /** One channel darkened by `Shadow`, floored at 0. */
  function Darken(ch: uint8): (r: uint8)
    ensures r <= ch
    ensures r == 0 <==> ch <= Shadow
    ensures r > 0 ==> r + Shadow == ch
  {
    if ch > Shadow then ch - Shadow else 0
  }

  /** Darkens every channel of a colour, keeping black and mapping both
      white and the key colour to white; bits 24..31 are dropped. */
  function Fragment(c: uint32, dT: real): (r: uint32)
    ensures c == 0 ==> r == 0
    ensures c == White || c == Key ==> r == White
    ensures c != White && c != Key ==>
      Red(r) == Darken(Red(c)) && Green(r) == Darken(Green(c)) && Blue(r) == Darken(Blue(c))
    ensures r < 0x100_0000
  {
    if c == 0 then 0
    else if c != White && c != Key then Pack(0, Darken(Red(c)), Darken(Green(c)), Darken(Blue(c)))
    else White
  }

  /** Outside the two sentinels no channel gets brighter. */
  lemma FragmentNeverBrightens(c: uint32, dT: real)
    requires c != White && c != Key
    ensures Red(Fragment(c, dT)) <= Red(c)
    ensures Green(Fragment(c, dT)) <= Green(c)
    ensures Blue(Fragment(c, dT)) <= Blue(c)
  {
  }

  /** Every output is white or has all three channels at most 255 - 30. */
  lemma FragmentRange(c: uint32, dT: real)
    ensures var r := Fragment(c, dT);
      r == White || (Red(r) <= 255 - Shadow && Green(r) <= 255 - Shadow && Blue(r) <= 255 - Shadow)
  {
  }

  /** The black special case agrees with darkening black channel by channel. */
  lemma FragmentBlackIsDarkening(dT: real)
    ensures Fragment(0, dT) == Pack(0, Darken(Red(0)), Darken(Green(0)), Darken(Blue(0)))
  {
    assert Red(0) == 0 && Green(0) == 0 && Blue(0) == 0;
    assert Pack(0, 0, 0, 0) == 0;
  }

  /** The frame time is ignored. */
  lemma FragmentIgnoresTime(c: uint32, dT: real, dT': real)
    ensures Fragment(c, dT) == Fragment(c, dT')
  {
  }

  /** Whitens the key colour and leaves every other colour alone. */
  function SpriteBackground(c: uint32, dT: real): (r: uint32)
    ensures r != Key
    ensures c == Key ==> r == White
    ensures c != Key ==> r == c
  {
    if c == Key then White else c
  }

  lemma SpriteBackgroundIdempotent(c: uint32, dT: real)
    ensures SpriteBackground(SpriteBackground(c, dT), dT) == SpriteBackground(c, dT)
  {
  }

  lemma SpriteBackgroundIgnoresTime(c: uint32, dT: real, dT': real)
    ensures SpriteBackground(c, dT) == SpriteBackground(c, dT')
  {
  }

  /** Keying the background first does not change what the shader produces:
      the shader already treats the key colour as white. */
  lemma FragmentAbsorbsBackground(c: uint32, dT: real)
    ensures Fragment(SpriteBackground(c, dT), dT) == Fragment(c, dT)
  {
  }
}

=== FILE: sprites.dfy ===
/** The sprite render system: the rectangles passed to the renderer for every
    entity that has a Transform and a Sprite. */
module SpriteRender {
  import opened Wrappers
  import opened Components
  import opened Registry
  import opened Scenes

  /** The draw for one sprite seen by a camera at `camT` with the given zoom:
      the whole sprite cell, scaled by the zoom, at the entity's position
      relative to the camera. */
  function SpriteDraw(camT: Transform, zoom: int, t: Transform, s: Sprite): (r: Draw)
    ensures r.texture == s.texture
    ensures r.src.x == s.x && r.src.y == s.y && r.src.w == r.src.h == s.size
    ensures r.dst.x + camT.x == t.x && r.dst.y + camT.y == t.y
    ensures r.dst.w == r.dst.h == zoom * r.src.w
  {
    Draw(s.texture, Rect(s.x, s.y, s.size, s.size), Rect(t.x - camT.x, t.y - camT.y, zoom * s.size, zoom * s.size))
  }

  /** Moving the camera and the entity by the same offset draws the same picture. */
  lemma SpriteDrawTranslationInvariant(camT: Transform, zoom: int, t: Transform, s: Sprite, dx: int, dy: int)
    ensures SpriteDraw(Transform(camT.x + dx, camT.y + dy), zoom, Transform(t.x + dx, t.y + dy), s)
         == SpriteDraw(camT, zoom, t, s)
  {
  }

  /** A camera at the origin draws sprites at their world positions. */
  lemma SpriteDrawAtOrigin(zoom: int, t: Transform, s: Sprite)
    ensures SpriteDraw(Transform(0, 0), zoom, t, s).dst.x == t.x
    ensures SpriteDraw(Transform(0, 0), zoom, t, s).dst.y == t.y
  {
  }

  /** The system on a scene: one draw per entity of the Transform+Sprite view,
      failing when the main camera or its Transform or Camera is missing. */
  function Run(s: Scene): (r: Result<map<EntityId, Draw>, Error>)
    requires s.Valid()
    ensures s.mainCamera.None? ==> r == Failure(NoCamera)
    ensures s.mainCamera.Some? ==>
      (r.Success? <==> GetTransform(s.registry, s.mainCamera.value).Success? && GetCamera(s.registry, s.mainCamera.value).Success?)
    ensures r.Success? ==> r.value.Keys == View(s.registry, {TransformKind, SpriteKind})
    ensures r.Success? ==>
      var cam := s.registry.entities[s.mainCamera.value];
      forall e :: e in r.value ==>
        r.value[e] == SpriteDraw(cam.transform.value, cam.camera.value.zoom,
                                 s.registry.entities[e].transform.value, s.registry.entities[e].sprite.value)
  {
    if s.mainCamera.None? then Failure(NoCamera)
    else
      var camT :- GetTransform(s.registry, s.mainCamera.value);
      var cam :- GetCamera(s.registry, s.mainCamera.value);
      var view := View(s.registry, {TransformKind, SpriteKind});
      Success(map e | e in view ::
        SpriteDraw(camT, cam.zoom, s.registry.entities[e].transform.value, s.registry.entities[e].sprite.value))
  }
}

=== FILE: tilemap.dfy ===
/** The tile-map system: decoding a map image into atlas cells (setup) and
    laying the cells out on screen (render). */
module TileMap {
  import opened Wrappers
  import opened CInt
  import opened Components
  import opened Pixels
  import opened Registry
  import opened Scenes

  /** Side of one atlas cell, in texels. */
  const TileSize: int := 16

  /** Horizontal step between drawn tiles, independent of the zoom. */
  const TileWidth: int := 60

  /** A decoded image: `width * height` pixels in row-major order. */
  datatype Image = Image(width: nat, height: nat, pixels: seq<uint32>) {
    predicate Valid() {
      |pixels| == width * height
    }
  }

  /** The atlas cell a map pixel selects: column = red channel, row = green channel. */
  function TileRect(c: uint32): (r: Rect)
    ensures r.w == TileSize && r.h == TileSize
    ensures r.x % TileSize == 0 && 0 <= r.x <= 255 * TileSize
    ensures r.y % TileSize == 0 && 0 <= r.y <= 255 * TileSize
    ensures r.x / TileSize == Red(c) && r.y / TileSize == Green(c)
  {
    Rect(Red(c) * TileSize, Green(c) * TileSize, TileSize, TileSize)
  }

  /** Blue and alpha do not affect the selected cell. */
  lemma TileRectIgnoresBlueAlpha(c: uint32, c': uint32)
    requires Red(c) == Red(c') && Green(c) == Green(c')
    ensures TileRect(c) == TileRect(c')
  {
  }

  /** Two map pixels select the same cell exactly when their red and green channels agree. */
  lemma TileRectInjectiveOnRedGreen(c: uint32, c': uint32)
    requires TileRect(c) == TileRect(c')
    ensures Red(c) == Red(c') && Green(c) == Green(c')
  {
  }

  /** The level-authoring convention: a pixel painted with red `r` and green `g`
      selects the cell at (16 r, 16 g), whatever its blue and alpha. */
  lemma AuthoringRoundTrip(a: uint8, r: uint8, g: uint8, b: uint8)
    ensures TileRect(Pack(a, r, g, b)) == Rect(TileSize * r, TileSize * g, TileSize, TileSize)
  {
  }

  /** Setup: one cell per map pixel, in the pixels' order. */
  method Decode(img: Image) returns (tiles: seq<Rect>)
    requires img.Valid()
    ensures |tiles| == img.width * img.height
    ensures forall i :: 0 <= i < |tiles| ==> tiles[i] == TileRect(img.pixels[i])
  {
    var total := img.width * img.height;
    tiles := [];
    var i := 0;
    while i < total
      invariant 0 <= i <= total
      invariant |tiles| == i
      invariant forall k :: 0 <= k < i ==> tiles[k] == TileRect(img.pixels[k])
    {
      var currentColor := img.pixels[i];
      var r := Red(currentColor);
      var g := Green(currentColor);
      tiles := tiles + [Rect(r * TileSize, g * TileSize, TileSize, TileSize)];
      i := i + 1;
    }
  }

  /** A two-pixel map: red 1 then green 2 decode to the cells (16, 0) and (0, 32). */
  method DecodeExample() returns (tiles: seq<Rect>)
    ensures tiles == [Rect(16, 0, 16, 16), Rect(0, 32, 16, 16)]
  {
    tiles := Decode(Image(2, 1, [0x01_0000, 0x00_0200]));
    assert tiles[0] == TileRect(0x01_0000) && tiles[1] == TileRect(0x00_0200);
  }

  /** Where the `k`-th tile of a `width`-wide map is drawn: columns advance by
      `TileWidth`, rows by the zoomed cell size, both offset by the camera. */
  function TileDraw(tiles: seq<Rect>, width: nat, camT: Transform, zoom: int, texture: TextureId, k: nat): Draw
    requires width > 0 && k < |tiles|
  {
    var size := zoom * TileSize;
    Draw(texture, tiles[k], Rect(-camT.x + TileWidth * (k % width), -camT.y + (k / width) * size, size, size))
  }

  /** Render: every tile, row by row, with the running rectangle of the source. */
  method Render(tiles: seq<Rect>, width: nat, height: nat, camT: Transform, zoom: int, texture: TextureId)
    returns (draws: seq<Draw>)
    requires |tiles| == width * height
    ensures |draws| == width * height
    ensures width > 0 ==> forall k :: 0 <= k < |draws| ==> draws[k] == TileDraw(tiles, width, camT, zoom, texture, k)
  {
    var dstTileSize := zoom * TileSize;
    var rect := Rect(-camT.x, -camT.y, dstTileSize, dstTileSize);
    draws := [];
    var i := 0;
    while i < height
      invariant 0 <= i <= height
      invariant |draws| == i * width <= |tiles|
      invariant rect == Rect(-camT.x, -camT.y + i * dstTileSize, dstTileSize, dstTileSize)
      invariant width > 0 ==> forall k :: 0 <= k < |draws| ==> draws[k] == TileDraw(tiles, width, camT, zoom, texture, k)
    {
      NextRow(i, height, width, dstTileSize);
      if width > 0 {
        draws, rect := RenderRow(tiles, width, camT, zoom, texture, i, i * width, draws, rect);
      }
      rect := rect.(x := -camT.x, y := rect.y + dstTileSize);
      i := i + 1;
    }
  }

  /** The render pass as the scene runs it: the camera transform and zoom come
      from the scene's main camera, and without one (or without its Transform or
      Camera) the pass fails instead of drawing. */
  method RenderScene(s: Scene, tiles: seq<Rect>, width: nat, height: nat, texture: TextureId)
    returns (r: Result<seq<Draw>, Error>)
    requires s.Valid() && |tiles| == width * height
    ensures s.mainCamera.None? ==> r == Failure(NoCamera)
    ensures s.mainCamera.Some? ==>
      (r.Success? <==> GetTransform(s.registry, s.mainCamera.value).Success? && GetCamera(s.registry, s.mainCamera.value).Success?)
    ensures r.Success? ==> |r.value| == width * height
    ensures r.Success? && width > 0 ==>
      var cam := s.registry.entities[s.mainCamera.value];
      forall k :: 0 <= k < |r.value| ==>
        r.value[k] == TileDraw(tiles, width, cam.transform.value, cam.camera.value.zoom, texture, k)
  {
    if s.mainCamera.None? {
      return Failure(NoCamera);
    }
    var camT := GetTransform(s.registry, s.mainCamera.value);
    if camT.Failure? {
      return Failure(camT.error);
    }
    var cam := GetCamera(s.registry, s.mainCamera.value);
    if cam.Failure? {
      return Failure(cam.error);
    }
    var draws := Render(tiles, width, height, camT.value, cam.value.zoom, texture);
    return Success(draws);
  }

  /** Row `i + 1` starts one row width and one tile height after row `i`, and fits when `i` does. */
  lemma NextRow(i: nat, height: nat, width: nat, size: int)
    requires i < height
    ensures (i + 1) * width == i * width + width <= height * width
    ensures (i + 1) * size == i * size + size
  {
  }

  /** The inner loop of `Render`: row `i`, whose first tile is at index `base`,
      appended to the draws of the rows above it. */
  method RenderRow(tiles: seq<Rect>, width: nat, camT: Transform, zoom: int, texture: TextureId,
                   i: nat, base: nat, prefix: seq<Draw>, rowStart: Rect)
    returns (draws: seq<Draw>, rect: Rect)
    requires width > 0 && base == i * width && base + width <= |tiles|
    requires |prefix| == base
    requires rowStart == Rect(-camT.x, -camT.y + i * (zoom * TileSize), zoom * TileSize, zoom * TileSize)
    requires forall k :: 0 <= k < |prefix| ==> prefix[k] == TileDraw(tiles, width, camT, zoom, texture, k)
    ensures |draws| == base + width
    ensures rect.y == rowStart.y && rect.w == rowStart.w && rect.h == rowStart.h
    ensures forall k :: 0 <= k < |draws| ==> draws[k] == TileDraw(tiles, width, camT, zoom, texture, k)
  {
    draws, rect := prefix, rowStart;
    var j := 0;
    while j < width
      invariant 0 <= j <= width
      invariant |draws| == base + j
      invariant rect == Rect(-camT.x + TileWidth * j, rowStart.y, rowStart.w, rowStart.h)
      invariant forall k :: 0 <= k < |draws| ==> draws[k] == TileDraw(tiles, width, camT, zoom, texture, k)
    {
      TileDrawAt(tiles, width, camT, zoom, texture, i, j, base);
      draws := draws + [Draw(texture, tiles[base + j], rect)];
      rect := rect.(x := rect.x + TileWidth);
      j := j + 1;
    }
  }

  /** `TileDraw` at row `i`, column `j`, for a row starting at index `base`. */
  lemma TileDrawAt(tiles: seq<Rect>, width: nat, camT: Transform, zoom: int, texture: TextureId, i: nat, j: nat, base: nat)
    requires j < width && base == i * width && base + j < |tiles|
    ensures TileDraw(tiles, width, camT, zoom, texture, base + j)
         == Draw(texture, tiles[base + j],
                 Rect(-camT.x + TileWidth * j, -camT.y + i * (zoom * TileSize), zoom * TileSize, zoom * TileSize))
  {
    DivModSplit(i, j, width);
  }

  /** The tile in row `i`, column `j` is drawn at (-cx + 60 j, -cy + i zoom 16). */
  lemma TileDrawRowCol(tiles: seq<Rect>, width: nat, height: nat, camT: Transform, zoom: int, texture: TextureId, i: nat, j: nat)
    requires |tiles| == width * height && i < height && j < width
    ensures i * width + j < |tiles|
    ensures TileDraw(tiles, width, camT, zoom, texture, i * width + j)
         == Draw(texture, tiles[i * width + j],
                 Rect(-camT.x + TileWidth * j, -camT.y + i * (zoom * TileSize), zoom * TileSize, zoom * TileSize))
  {
    assert i * width + j < (i + 1) * width <= height * width;
    TileDrawAt(tiles, width, camT, zoom, texture, i, j, i * width);
  }

  /** Columns advance by 60 while a tile at zoom 4 is 64 wide, so neighbours in a
      row overlap by 4 pixels; rows advance by exactly the tile height. */
  lemma ColumnStepQuirk(tiles: seq<Rect>, width: nat, camT: Transform, texture: TextureId, k: nat)
    requires width > 0 && k + 1 < |tiles| && (k + 1) % width != 0
    ensures TileDraw(tiles, width, camT, 4, texture, k + 1).dst.x - TileDraw(tiles, width, camT, 4, texture, k).dst.x == TileWidth
    ensures TileDraw(tiles, width, camT, 4, texture, k).dst.w == TileWidth + 4
  {
    var q, r := k / width, k % width;
    assert k == q * width + r;
    if r + 1 < width {
      DivModSplit(q, r + 1, width);
    } else {
      DivModSplit(q + 1, 0, width);
      assert false;
    }
  }
}

=== FILE: wrappers.dfy ===
/** Failure-compatible wrappers: an optional value and a value-or-error. */
module Wrappers {

  /** A value that may be absent (a component slot, a scene's player pointer). */
  datatype Option<+T> = None | Some(value: T)

  /** The outcome of an operation that can violate a contract of the game runtime. */
  datatype Result<+R, +E> = Success(value: R) | Failure(error: E) {

    predicate IsFailure() {
      Failure?
    }

    function PropagateFailure<U>(): Result<U, E>
      requires Failure?
    {
      Failure(error)
    }

    function Extract(): R
      requires Success?
    {
      value
    }
  }
}
